=== FILE: README.md ===
# 2019-nCoV dashboard: the reshaping core in Dafny

The dashboard polls two epidemic-statistics endpoints every ten minutes. It draws four
counters, a trend chart and two choropleth maps, one by province and one by city. Between
fetching and drawing, four callbacks in `app.py` reshape the JSON. This project models
those four reshapings as pure functions over immutable records, and proves what they
return and when they fail:

- **Trend series** (`update_graph`, module `TimeSeries`). Each daily record becomes the
  tuple `(date, confirm, suspect, dead, heal)`. The date "M/D" is rewritten as
  "2020-M-D". The tuples are sorted in Python's tuple order and split into five aligned
  sequences.
- **Province table** (`update_province_map`, module `Regions`). There is one row per
  province. Its key is `provinceName.rstrip("省").rstrip("市")`, followed by the counts in
  the order confirmed, suspected, cured, dead.
- **City table** (`update_city_map`, module `Regions`). A province in the municipality list
  北京, 上海, 天津, 重庆, 台湾 becomes one row with its own counts. Every other province
  becomes one row per entry of its `cities` list.
- **Counters** (`update_counts`, module `Counters`). The first element of
  `wuwei_ww_global_vars` is read, and each total is formatted as `f"{x:05d}"`.

Supporting modules:

- `Errors`: the exceptions as a `Result` type, and `Option` for a key that may be absent.
- `Text`: `split`, `join`, `rstrip`, and Python's ordering of `str` values.
- `Decimal`: digit strings and the `:05d` format.
- `Sorting`: tuple order, an insertion sort, and uniqueness of sorted permutations. By
  uniqueness, the model's sort returns what Python's `sorted` returns.
- `Chronology`: the corrected date handling described under Findings.

The Python exceptions become explicit error results:

- `UnpackEmpty` is the ValueError raised when `zip(*[])` is unpacked into five names.
  This happens for an empty daily list and for an empty province list.
- `MissingKey("cities")` is raised by a non-municipality province with no `cities` key.
- `IndexOutOfRange` is raised by `[0]` on an empty global-variable list.

The model follows the code in three places where a reader might expect otherwise:

- An empty daily-count list is an error, not an empty series.
- Dates stay strings and are ordered as strings, not as calendar dates.
- A non-municipality province without `cities` makes the whole city table fail. It is not
  skipped.

The local clock reading shown in the refresh line is the parameter `now` of
`Counters.UpdateCounts`, already formatted.

## Model

| member | source | states |
|---|---|---|
| `Text.Split` | app.py:187 | `d.split('/')` has one more piece than `d` has '/' characters, and no piece contains '/'; with `Text.JoinSplitRoundTrip` this fixes the pieces |
| `Text.Join` | app.py:187 | `'-'.join(parts)` of at least one '-'-free piece splits on '-' back into exactly those pieces |
| `Text.JoinSplitReplaces` | app.py:187 | `'-'.join(d.split('/'))` replaces every '/' of `d` by '-' and changes nothing else |
| `Text.JoinSplitRoundTrip` | app.py:187 | joining the pieces of a split with the same separator gives the string back |
| `Text.SplitOnce` | app.py:187 | a date "M/D" with '/'-free parts splits into exactly the two parts M and D |
| `TimeSeries.NormalizeDate` | app.py:187 | the normalised date is "2020-" followed by the input with each '/' turned into '-'; it is 5 characters longer and has no '/' after the prefix |
| `TimeSeries.NormalizeDateExamples` | app.py:187 | "1/23" becomes "2020-1-23" and "1/3" becomes "2020-1-3", without zero padding |
| `Text.StrLtIsLexicographic` | app.py:189 | Python's `a < b` on `str` (`Text.StrLt`) holds exactly when `a` is a proper prefix of `b`, or when `a` has the smaller code point at the first position where the two differ |
| `Text.StrLtTrichotomy` | app.py:189 | Python's string order relates any two distinct strings one way or the other |
| `Text.StrLtTransitive` | app.py:189 | Python's string order is transitive |
| `Text.StrLtAsymmetric` | app.py:189 | no two strings are each smaller than the other |
| `Text.StrLtConcat` | app.py:189 | strings that start with pieces of equal length compare those pieces first, and the rest only on a tie |
| `Sorting.EntryLt` | app.py:189 | Python's `<` on `(date, confirm, suspect, dead, heal)` tuples: the date decides first, so a smaller date string puts a tuple first whatever its counts and a tuple is never smaller than one with a smaller date; no tuple is smaller than itself |
| `Sorting.EntryLeTotal` | app.py:189 | any two trend tuples are comparable in Python's tuple order |
| `Sorting.EntryLeAntisymmetric` | app.py:189 | tuples that are each at most the other are equal, so the order has no ties between distinct tuples |
| `Sorting.EntryLeTransitive` | app.py:189 | tuple order is transitive |
| `Sorting.Sort` | app.py:188-190 | the sorted result is non-decreasing in tuple order and a permutation of its input |
| `Sorting.SortedPermutationUnique` | app.py:188-190 | two sorted sequences holding the same tuples are equal, so `sorted` has exactly one possible result |
| `Sorting.SortPermutationInvariant` | app.py:188-190 | sorting depends only on which tuples there are, not on their order |
| `Sorting.SortSortedIsIdentity` | app.py:188-190 | sorting already-sorted tuples changes nothing |
| `TimeSeries.ZipUnzip` | app.py:188-190 | splitting rows into the five columns and zipping them again gives the rows back |
| `TimeSeries.UnzipZip` | app.py:188-190 | zipping five aligned columns and splitting them again gives the columns back |
| `TimeSeries.BuildTrend` | app.py:183-190 | fails with the unpacking error exactly when there are no records; otherwise the five sequences all have one entry per record, their rows are sorted, and the rows are a permutation of the records' normalised tuples |
| `TimeSeries.BuildTrendIsTheSortedArrangement` | app.py:188-190 | the trend equals the columns of any sorted arrangement of the records' tuples, so it matches Python's `sorted` |
| `TimeSeries.MapSeqPermutation` | app.py:184-185 | mapping records to tuples turns rearranged records into rearranged tuples |
| `TimeSeries.BuildTrendIgnoresInputOrder` | app.py:183-190 | records that arrive in a different order give the same trend |
| `TimeSeries.BuildTrendColumnOrder` | app.py:188-190 | read down the columns, dates never decrease as strings, and ties are broken by confirm, then suspect, then dead, then heal |
| `TimeSeries.BuildTrendRowsComeFromRecords` | app.py:184-190 | every trend row is the tuple of some record, and every record's tuple is in the trend |
| `TimeSeries.LateBeforeEarlyAsStrings` | app.py:189 | "2020-1-23" is a smaller string than "2020-1-3" |
| `TimeSeries.BuildTrendOfTwo` | app.py:188-190 | of two records, the one with the smaller normalised date string comes first, whatever order they arrive in |
| `TimeSeries.BuildTrendOrdersDatesAsStrings` | app.py:187-190 | records dated "1/3" and "1/23" give the dates "2020-1-23" then "2020-1-3", which is not calendar order |
| `Text.RStrip` | app.py:272 | `s.rstrip(c)` is a prefix of `s` that does not end in `c`, and every character it drops is `c` |
| `Text.RStripIdempotent` | app.py:272 | stripping a second time removes nothing more |
| `Regions.JoinKey` | app.py:272 | the join key is a prefix of the province name; the removed tail holds only '省' and '市', with every '省' after the last '市' (a run of '市' then a run of '省'); the key does not end in '市', and ends in '省' only when a '市' was removed right after it |
| `Regions.JoinKeyUnique` | app.py:272 | any string with those properties is the key, so they determine `rstrip("省").rstrip("市")` completely |
| `Regions.JoinKeyKeepsPlainNames` | app.py:272 | a name ending in neither '省' nor '市' is its own key |
| `Regions.JoinKeyDropsSuffix` | app.py:272 | adding '省' never changes the key; adding '市' to a name that does not end in '省' does not change it either |
| `Regions.JoinKeyExamples` | app.py:272 | 湖北省 gives the key 湖北, 北京市 gives 北京, and 香港 stays 香港 |
| `Regions.RowsColumns` | app.py:269-280 | splitting rows into the five parallel columns and reading them back row by row gives the same rows |
| `Regions.ColumnsRows` | app.py:320-336 | reading five aligned columns row by row and splitting the rows again gives the same columns |
| `Regions.ProvinceTable` | app.py:268-280 | fails with the unpacking error exactly when the province list is empty; otherwise it has one aligned row per province, in input order, keyed by the join key and carrying that province's counts as confirmed, suspected, cured, dead |
| `Regions.ProvinceCityRows` | app.py:323-336 | one province's contribution fails exactly when it is not a municipality and has no `cities` key, with a KeyError for `cities`; otherwise it has RowsOf(p) rows: for a municipality the single row of its short name and its own four counts, for any other province the k-th city's row at position k |
| `Regions.CityRows` | app.py:320-336 | the city table, built province by province in input order: when it fails, the failure is the KeyError for `cities`, and when it succeeds, every province's own contribution succeeded |
| `Regions.CityRowsOutcome` | app.py:320-336 | the city table fails exactly when some non-municipality province has no `cities` key, and then with a KeyError for `cities`; otherwise it has one row per municipality plus one per listed city |
| `Regions.CityRowsOfNothing` | app.py:320-321 | an empty province list gives an empty city table |
| `Regions.CityRowsPlacement` | app.py:321-336 | each province's rows form one contiguous block of the table, in province order, and the block holds exactly the rows that province produces alone |
| `Regions.MunicipalityRow` | app.py:323-330 | a municipality gives one row, named by its short name and carrying the province's own four counts |
| `Regions.CityRowsOfProvince` | app.py:331-336 | any other province has a `cities` list, and its k-th city gives the k-th row of its block, with that city's name and counts |
| `Regions.MunicipalityCitiesIgnored` | app.py:323-330 | a municipality's `cities` field is never read: changing or removing it leaves the city table unchanged |
| `Regions.CityRowsPrefixFails` | app.py:321-336 | once the provinces processed so far have failed, the whole city table fails |
| `Regions.FlattenCities` | app.py:320-336 | the loop that appends to five parallel lists fails exactly when the city table does, always with a KeyError for `cities`; otherwise it returns aligned columns whose rows are the city table |
| `Decimal.Digits` | app.py:256-259 | `str(n)` is a non-empty digit string that reads back as `n` and has no leading zero unless `n` is 0 |
| `Decimal.DigitsLength` | app.py:256-259 | `str(n)` has NumDigits(n) characters; for n >= 1, NumDigits(n) is the k with 10^(k-1) <= n < 10^k, and NumDigits(0) is 1 |
| `Decimal.ZeroPadKeepsValue` | app.py:256-259 | zero padding widens a digit string to the requested width and keeps its value |
| `Decimal.Format05d` | app.py:256-259 | for x >= 0 the counter string is all digits and max(5, number of digits of x) long; for x < 0 it is '-' followed by digits and max(5, 1 + number of digits) long; in both cases it reads back as x |
| `Decimal.Format05dInjective` | app.py:256-259 | different totals give different counter strings |
| `Decimal.Format05dFiveWide` | app.py:256-259 | every total from 0 to 99999 fills exactly five characters |
| `Decimal.Format05dExamples` | app.py:256-259 | 42 is shown as "00042", -5 as "-0005", and 123456 is kept whole |
| `Counters.UpdateCounts` | app.py:249-259 | fails with an IndexError exactly when the global-variable list is empty; otherwise the refresh line is the fixed label plus the clock reading, and the four counters are exactly the `:05d` renderings (`Decimal.Format05d`) of the first element's confirmCount, suspectCount, deadCount and cure, so each reads back as that total and is at least five characters wide |
| `Counters.UpdateCountsReadsFirstOnly` | app.py:249-253 | entries after the first never change the counters |
| `Counters.UpdateCountsFiveDigits` | app.py:256-259 | totals from 0 to 99999 are shown as exactly five digits |
| `Chronology.NormalizeDateIsNotChronological` | app.py:187-190 | "1/3" is an earlier day than "1/23", yet its normalised string is the larger one |
| `Chronology.PaddedDate` | app.py:187 | the corrected date is a "2020-MM-DD" string naming the same month and day as "M/D" |
| `Chronology.TwoDigitOrder` | app.py:189 | two-digit strings compare as their numeric values do |
| `Chronology.IsoDateOrderIsChronological` | app.py:189 | for "2020-MM-DD" strings, string order is calendar order, and equal strings name the same day |
| `Chronology.PaddedEntries` | app.py:184-187 | fails exactly when some date is not "M/D"; otherwise it gives one corrected tuple per record, in order |
| `Chronology.SortedIsoEntriesAreChronological` | app.py:188-190 | sorted tuples with "2020-MM-DD" dates never put a later day before an earlier one |
| `Chronology.BuildChronologicalTrend` | app.py:183-190 | the corrected trend fails exactly on an empty list or a date that is not "M/D"; otherwise it is aligned, a permutation of the corrected tuples, sorted in tuple order (so equal days are ordered by their counts), and in calendar order |
| `Chronology.ChronologicalTrendOfTwo` | app.py:188-190 | of two records with "M/D" dates, the corrected trend lists the earlier day first, whatever order they arrive in |
| `Chronology.ChronologicalTrendFixesExample` | app.py:187-190 | records dated "1/3" and "1/23" give the corrected dates "2020-01-03" then "2020-01-23" |

## Findings

| source | as written | input that shows it | evidently intended | confidence | as-written member | corrected member |
|---|---|---|---|---|---|---|
| app.py:187-190 | Dates are written "2020-M-D" without zero padding and then sorted as strings. | Records dated "1/3" and "1/23" come out with "2020-1-23" before "2020-1-3". In the same way "2/10" sorts before "2/2". | A trend in calendar order. With dates padded to "2020-MM-DD", string order is calendar order. | medium; not executed | `TimeSeries.BuildTrendOrdersDatesAsStrings`, `Chronology.NormalizeDateIsNotChronological` | `Chronology.BuildChronologicalTrend`, `Chronology.ChronologicalTrendFixesExample` |

`TimeSeries.BuildTrend` keeps the code's behaviour, because the chart receives exactly that
output. `Chronology.BuildChronologicalTrend` is the corrected definition. Nothing else in the
model consumes a trend.

## Left out

- HTTP fetching (`requests.get`, `raise_for_status`, `r.json()`) and the lookups
  `res["data"][...]` that reach each list. These are network I/O and JSON decoding. Each
  model function starts from the list the callback indexes.
- Missing keys other than `cities`, and values of other types. Every field is typed, so
  such inputs cannot be written down. In Python their effects differ by place:
  - A missing key raises KeyError where it is read.
  - A `date` or `provinceName` that is not a `str` raises AttributeError at `.split`
    (app.py:187) or `.rstrip` (app.py:272).
  - A float count passes through the sort and both tables unchanged, and raises
    ValueError at `:05d` (app.py:256-259).
  - A `str` count raises TypeError in the sort only when two records share a date
    (app.py:189).
- A `cities` value that is present but is not a list, such as null. It raises TypeError
  at app.py:331. In the model, `cities` is either absent or a list of cities.
- `update_time` is looked up at app.py:253 but never used. Its field is present in
  `Counters.GlobalVars`, so a missing `update_time` key is not modelled.
- The Dash layout, the callback wiring and the ten-minute `dcc.Interval`. These belong to
  the UI framework and its scheduler.
- Plotly figure construction, the choropleth settings and the hover templates. These
  belong to a third-party rendering library.
- The intensity `np.log(confirmed + 1)` at app.py:281 and app.py:337. It is floating-point
  arithmetic and only colours the maps.
- The CSV export of the city table at app.py:338-347. It is file I/O.
- Loading the map token and the GeoJSON files at app.py:34-40. This is file I/O.
- Reading and formatting the local clock at app.py:255. The clock reading is the `now`
  parameter.
- Strings holding lone surrogates (U+D800 to U+DFFF). A Python `str` can hold one, for
  example from a `"\ud800"` escape in the JSON, but the model's characters are Unicode
  scalar values.
- `timestamp2datetime` at app.py:53-54. It is never called by the modelled code.
- Python's `bool` as an `int` in `:05d`. Counts are modelled as integers only.

=== FILE: chronology.dfy ===
/** The trend's dates as a chronological axis. `NormalizeDate` keeps the
    one-digit months and days of "M/D", so ordering the normalised strings
    does not order the days. Padding both parts to two digits gives
    "2020-MM-DD" strings whose string order is the calendar order; the
    trend built from them is in chronological order. */
module Chronology {
  import opened Errors
  import opened Text
  import opened Decimal
  import opened Sorting
  import opened TimeSeries

  /** An upstream date "M/D": one '/' between two one- or two-digit numbers. */
  predicate IsMonthDay(d: string)
  {
    var parts := Split(d, '/');
    && |parts| == 2
    && 1 <= |parts[0]| <= 2 && AllDigits(parts[0])
    && 1 <= |parts[1]| <= 2 && AllDigits(parts[1])
  }

  function Month(d: string): nat
    requires IsMonthDay(d)
  {
    ParseNat(Split(d, '/')[0])
  }

  function Day(d: string): nat
    requires IsMonthDay(d)
  {
    ParseNat(Split(d, '/')[1])
  }

  /** A "2020-MM-DD" string: fixed prefix, two digits, '-', two digits. */
  predicate IsIsoDate(s: string)
  {
    && |s| == 10 && s[..5] == "2020-" && s[7] == '-'
    && AllDigits(s[5..7]) && AllDigits(s[8..10])
  }

  function IsoMonth(s: string): nat
    requires IsIsoDate(s)
  {
    ParseNat(s[5..7])
  }

  function IsoDay(s: string): nat
    requires IsIsoDate(s)
  {
    ParseNat(s[8..10])
  }

  /** `a` is an earlier day of the year than `b`. */
  predicate IsoBefore(a: string, b: string)
    requires IsIsoDate(a) && IsIsoDate(b)
  {
    IsoMonth(a) < IsoMonth(b) || (IsoMonth(a) == IsoMonth(b) && IsoDay(a) < IsoDay(b))
  }

  /** A one- or two-digit number written with exactly two digits. */
  function Pad2(p: string): (q: string)
    requires 1 <= |p| <= 2 && AllDigits(p)
    ensures |q| == 2 && AllDigits(q) && ParseNat(q) == ParseNat(p)
  {
    ZeroPadKeepsValue(p, 2);
    ZeroPad(p, 2)
  }

  /** The corrected normalisation of "M/D": "2020-MM-DD", naming the same
      month and day. */
  function PaddedDate(d: string): (r: string)
    requires IsMonthDay(d)
    ensures IsIsoDate(r)
    ensures IsoMonth(r) == Month(d) && IsoDay(r) == Day(d)
  {
    var parts := Split(d, '/');
    var r := "2020-" + Pad2(parts[0]) + "-" + Pad2(parts[1]);
    assert r[5..7] == Pad2(parts[0]) && r[8..10] == Pad2(parts[1]);
    r
  }

  /** Two-digit strings compare as their values do. */
  lemma TwoDigitOrder(x: string, y: string)
    requires |x| == 2 && |y| == 2 && AllDigits(x) && AllDigits(y)
    ensures StrLt(x, y) <==> ParseNat(x) < ParseNat(y)
    ensures x == y <==> ParseNat(x) == ParseNat(y)
  {
    assert ParseNat(x[..1]) == DigitValue(x[0]) by {
      assert x[..1][..0] == [];
    }
    assert ParseNat(y[..1]) == DigitValue(y[0]) by {
      assert y[..1][..0] == [];
    }
    assert ParseNat(x) == DigitValue(x[0]) * 10 + DigitValue(x[1]);
    assert ParseNat(y) == DigitValue(y[0]) * 10 + DigitValue(y[1]);
    assert StrLt(x[1..], y[1..]) <==> x[1] < y[1];
    if ParseNat(x) == ParseNat(y) {
      assert x == [x[0], x[1]] && y == [y[0], y[1]];
    }
  }

  /** The corrected property: for "2020-MM-DD" strings, string
      order is calendar order, and equal strings are the same day. */
  lemma {:induction false} IsoDateOrderIsChronological(a: string, b: string)
    requires IsIsoDate(a) && IsIsoDate(b)
    ensures StrLt(a, b) <==> IsoBefore(a, b)
    ensures a == b <==> IsoMonth(a) == IsoMonth(b) && IsoDay(a) == IsoDay(b)
  {
    assert a == a[..5] + a[5..] && b == b[..5] + b[5..];
    assert a[5..] == a[5..7] + a[7..] && b[5..] == b[5..7] + b[7..];
    assert a[7..] == [a[7]] + a[8..10] && b[7..] == [b[7]] + b[8..10];
    StrLtIrreflexive(a[..5]);
    StrLtConcat(a[..5], a[5..], b[..5], b[5..]);
    StrLtConcat(a[5..7], a[7..], b[5..7], b[7..]);
    StrLtIrreflexive([a[7]]);
    StrLtConcat([a[7]], a[8..10], [b[7]], b[8..10]);
    TwoDigitOrder(a[5..7], b[5..7]);
    TwoDigitOrder(a[8..10], b[8..10]);
  }

  lemma MonthDayOfEarly()
    ensures IsMonthDay("1/3") && Month("1/3") == 1 && Day("1/3") == 3
  {
    assert "1" + "/" + "3" == "1/3";
    SplitOnce("1", "3", '/');
  }

  lemma MonthDayOfLate()
    ensures IsMonthDay("1/23") && Month("1/23") == 1 && Day("1/23") == 23
  {
    assert "1" + "/" + "23" == "1/23";
    SplitOnce("1", "23", '/');
    assert "23"[..1] == "2";
  }

  /** As written, the normalised dates are not ordered as the days are: the
      3rd of January comes before the 23rd, but its string comes after. */
  lemma NormalizeDateIsNotChronological()
    ensures IsMonthDay("1/3") && IsMonthDay("1/23")
    ensures Month("1/3") == Month("1/23") && Day("1/3") < Day("1/23")
    ensures StrLt(NormalizeDate("1/23"), NormalizeDate("1/3"))
  {
    MonthDayOfEarly();
    MonthDayOfLate();
    NormalizeDateExamples();
    LateBeforeEarlyAsStrings();
  }

  function PaddedEntry(rec: DayCount): Entry
    requires IsMonthDay(rec.date)
  {
    Entry(PaddedDate(rec.date), rec.confirm, rec.suspect, rec.dead, rec.heal)
  }

  /** The tuples of all records with corrected dates, or the first date that
      is not of the form "M/D". */
  function PaddedEntries(data: seq<DayCount>): (r: Result<seq<Entry>>)
    ensures r.Ok? <==> forall i :: 0 <= i < |data| ==> IsMonthDay(data[i].date)
    ensures r.Err? ==> r.error.MalformedDate?
    ensures r.Ok? ==> |r.value| == |data|
    ensures r.Ok? ==> forall i :: 0 <= i < |data| ==> r.value[i] == PaddedEntry(data[i])
  {
    if |data| == 0 then Ok([])
    else if !IsMonthDay(data[0].date) then Err(MalformedDate(data[0].date))
    else
      var rest :- PaddedEntries(data[1..]);
      Ok([PaddedEntry(data[0])] + rest)
  }

  /** Sorted tuples whose dates are all "2020-MM-DD" are in calendar order. */
  lemma SortedIsoEntriesAreChronological(rows: seq<Entry>)
    requires Sorted(rows)
    requires forall i :: 0 <= i < |rows| ==> IsIsoDate(rows[i].date)
    ensures forall i, j :: 0 <= i < j < |rows| ==> !IsoBefore(rows[j].date, rows[i].date)
  {
    forall i, j | 0 <= i < j < |rows|
      ensures !IsoBefore(rows[j].date, rows[i].date)
    {
      assert EntryLe(rows[i], rows[j]);
      IsoDateOrderIsChronological(rows[i].date, rows[j].date);
      IsoDateOrderIsChronological(rows[j].date, rows[i].date);
      StrLtAsymmetric(rows[i].date, rows[j].date);
    }
  }

  /** The trend with corrected dates: as BuildTrend, but every date must be
      "M/D" and is written "2020-MM-DD", so the result runs in calendar
      order. */
  function BuildChronologicalTrend(data: seq<DayCount>): (r: Result<Trend>)
    ensures r.Err? <==> |data| == 0 || exists i :: 0 <= i < |data| && !IsMonthDay(data[i].date)
    ensures |data| == 0 ==> r == Err(UnpackEmpty)
    ensures r.Ok? ==> Aligned(r.value) && |r.value.dates| == |data|
    ensures r.Ok? ==> multiset(Zip(r.value)) == multiset(PaddedEntries(data).value)
    ensures r.Ok? ==> Sorted(Zip(r.value))
    ensures r.Ok? ==> forall i :: 0 <= i < |data| ==> IsIsoDate(r.value.dates[i])
    ensures r.Ok? ==> forall i, j :: 0 <= i < j < |data| ==>
      !IsoBefore(r.value.dates[j], r.value.dates[i])
  {
    if |data| == 0 then Err(UnpackEmpty)
    else
      var entries :- PaddedEntries(data);
      var rows := Sort(entries);
      IsoRowsStayIso(entries, rows);
      SortedIsoEntriesAreChronological(rows);
      ZipUnzip(rows);
      Ok(Unzip(rows))
  }

  lemma IsoRowsStayIso(entries: seq<Entry>, rows: seq<Entry>)
    requires forall i :: 0 <= i < |entries| ==> IsIsoDate(entries[i].date)
    requires multiset(rows) == multiset(entries)
    ensures forall i :: 0 <= i < |rows| ==> IsIsoDate(rows[i].date)
  {
    forall i | 0 <= i < |rows|
      ensures IsIsoDate(rows[i].date)
    {
      assert rows[i] in multiset(entries);
    }
  }

  /** Two records with "M/D" dates have exactly their two corrected tuples,
      in order. */
  lemma PaddedOfTwo(a: DayCount, b: DayCount)
    requires IsMonthDay(a.date) && IsMonthDay(b.date)
    ensures PaddedEntries([a, b]) == Ok([PaddedEntry(a), PaddedEntry(b)])
  {
    var data := [a, b];
    assert IsMonthDay(data[0].date) && IsMonthDay(data[1].date);
    var r := PaddedEntries(data);
    assert |r.value| == 2;
    assert r.value[0] == PaddedEntry(a) && r.value[1] == PaddedEntry(b);
    assert r.value == [PaddedEntry(a), PaddedEntry(b)];
  }

  /** The corrected trend is the columns of any sorted arrangement of the
      corrected tuples. */
  lemma ChronologicalTrendIsTheSortedArrangement(data: seq<DayCount>, rows: seq<Entry>)
    requires |data| > 0 && PaddedEntries(data).Ok?
    requires Sorted(rows) && multiset(rows) == multiset(PaddedEntries(data).value)
    ensures BuildChronologicalTrend(data) == Ok(Unzip(rows))
  {
    var t := BuildChronologicalTrend(data).value;
    SortedPermutationUnique(Zip(t), rows);
    UnzipZip(t);
  }

  /** Of two records with "M/D" dates, the earlier day comes first in the
      corrected trend, whatever order they arrive in. */
  lemma {:induction false} ChronologicalTrendOfTwo(first: DayCount, second: DayCount)
    requires IsMonthDay(first.date) && IsMonthDay(second.date)
    requires Month(first.date) < Month(second.date)
      || (Month(first.date) == Month(second.date) && Day(first.date) < Day(second.date))
    ensures BuildChronologicalTrend([first, second]).Ok? && BuildChronologicalTrend([second, first]).Ok?
    ensures BuildChronologicalTrend([first, second]).value.dates
      == [PaddedDate(first.date), PaddedDate(second.date)]
    ensures BuildChronologicalTrend([second, first]).value.dates
      == [PaddedDate(first.date), PaddedDate(second.date)]
  {
    var early, late := PaddedEntry(first), PaddedEntry(second);
    PaddedPairSorted(first, second);
    assert multiset([late, early]) == multiset([early, late]);
    ChronologicalPairIsSortedPair(first, second, [early, late]);
    ChronologicalPairIsSortedPair(second, first, [early, late]);
    UnzipDatesOfTwo(early, late);
  }

  /** Two records with "M/D" dates give the trend of any sorted
      arrangement of their corrected tuples. */
  lemma ChronologicalPairIsSortedPair(a: DayCount, b: DayCount, rows: seq<Entry>)
    requires IsMonthDay(a.date) && IsMonthDay(b.date)
    requires Sorted(rows) && multiset(rows) == multiset([PaddedEntry(a), PaddedEntry(b)])
    ensures BuildChronologicalTrend([a, b]) == Ok(Unzip(rows))
  {
    PaddedOfTwo(a, b);
    ChronologicalTrendIsTheSortedArrangement([a, b], rows);
  }


  /** The corrected tuples of an earlier and a later day are in order. */
  lemma PaddedPairSorted(first: DayCount, second: DayCount)
    requires IsMonthDay(first.date) && IsMonthDay(second.date)
    requires Month(first.date) < Month(second.date)
      || (Month(first.date) == Month(second.date) && Day(first.date) < Day(second.date))
    ensures Sorted([PaddedEntry(first), PaddedEntry(second)])
  {
    var rows := [PaddedEntry(first), PaddedEntry(second)];
    IsoDateOrderIsChronological(PaddedDate(first.date), PaddedDate(second.date));
    assert EntryLe(rows[0], rows[1]);
  }

  /** "M/D" built from one- or two-digit parts is padded part by part. */
  lemma PaddedDateOfParts(m: string, d: string)
    requires 1 <= |m| <= 2 && AllDigits(m) && 1 <= |d| <= 2 && AllDigits(d)
    ensures IsMonthDay(m + "/" + d)
    ensures PaddedDate(m + "/" + d) == "2020-" + ZeroPad(m, 2) + "-" + ZeroPad(d, 2)
  {
    assert '/' !in m && '/' !in d;
    SplitOnce(m, d, '/');
  }

  lemma PaddedDateOfEarly()
    ensures IsMonthDay("1/3") && PaddedDate("1/3") == "2020-01-03"
  {
    assert AllDigits("1") && AllDigits("3");
    PaddedDateOfParts("1", "3");
    assert "1" + "/" + "3" == "1/3";
    assert ZeroPad("1", 2) == "01" && ZeroPad("3", 2) == "03";
  }

  lemma PaddedDateOfLate()
    ensures IsMonthDay("1/23") && PaddedDate("1/23") == "2020-01-23"
  {
    assert AllDigits("1") && AllDigits("23");
    PaddedDateOfParts("1", "23");
    assert "1" + "/" + "23" == "1/23";
    assert ZeroPad("1", 2) == "01" && ZeroPad("23", 2) == "23";
  }

  /** The corrected trend puts the 3rd of January before the 23rd. */
  lemma ChronologicalTrendFixesExample()
    ensures BuildChronologicalTrend([DayCount("1/3", 1, 0, 0, 0), DayCount("1/23", 2, 0, 0, 0)]).value.dates
      == ["2020-01-03", "2020-01-23"]
  {
    MonthDayOfEarly();
    MonthDayOfLate();
    PaddedDateOfEarly();
    PaddedDateOfLate();
    ChronologicalTrendOfTwo(DayCount("1/3", 1, 0, 0, 0), DayCount("1/23", 2, 0, 0, 0));
  }
}

=== FILE: counters.dfy ===
/** The reshaping inside `update_counts`: the first element of
    `wuwei_ww_global_vars` becomes the refresh line and four zero-padded
    counter strings. */
module Counters {
  import opened Errors
  import opened Decimal

  /** One element of `wuwei_ww_global_vars`. `update_time` is looked up but
      not used. */
  datatype GlobalVars = GlobalVars(
    confirmCount: int,
    suspectCount: int,
    deadCount: int,
    cure: int,
    updateTime: int)

  /** The five callback outputs: the refresh line and the counters for
      confirmed, suspected, dead and cured, in that order. */
  datatype Panel = Panel(
    updateText: string,
    confirmed: string,
    suspected: string,
    dead: string,
    cured: string)

  /** A counter string reads back as a whole number. */
  predicate IsCounter(s: string)
  {
    |s| > 0 && (AllDigits(s) || (s[0] == '-' && AllDigits(s[1..])))
  }

  /** The reshaping of `update_counts`. `now` stands for the local clock
      already formatted as "%Y-%m-%d %H:%M:%S". An empty global-variable list
      makes `[0]` raise an IndexError; otherwise each counter is the `:05d`
      rendering of the corresponding total of the first element, so it reads
      back as that total and is at least five characters wide. */
  function UpdateCounts(globals: seq<GlobalVars>, now: string): (r: Result<Panel>)
    ensures r.Err? <==> |globals| == 0
    ensures r.Err? ==> r.error == IndexOutOfRange
    ensures r.Ok? ==> r.value.updateText == "更新时间：" + now
    ensures r.Ok? ==>
      && IsCounter(r.value.confirmed) && ParseInt(r.value.confirmed) == globals[0].confirmCount
      && IsCounter(r.value.suspected) && ParseInt(r.value.suspected) == globals[0].suspectCount
      && IsCounter(r.value.dead) && ParseInt(r.value.dead) == globals[0].deadCount
      && IsCounter(r.value.cured) && ParseInt(r.value.cured) == globals[0].cure
    ensures r.Ok? ==>
      && |r.value.confirmed| >= 5 && |r.value.suspected| >= 5
      && |r.value.dead| >= 5 && |r.value.cured| >= 5
    ensures r.Ok? ==>
      && r.value.confirmed == Format05d(globals[0].confirmCount)
      && r.value.suspected == Format05d(globals[0].suspectCount)
      && r.value.dead == Format05d(globals[0].deadCount)
      && r.value.cured == Format05d(globals[0].cure)
  {
    if |globals| == 0 then Err(IndexOutOfRange)
    else
      var g := globals[0];
      Ok(Panel(
        "更新时间：" + now,
        Format05d(g.confirmCount),
        Format05d(g.suspectCount),
        Format05d(g.deadCount),
        Format05d(g.cure)))
  }

  /** Only the first element is read: entries after it never change the panel. */
  lemma UpdateCountsReadsFirstOnly(globals: seq<GlobalVars>, more: seq<GlobalVars>, now: string)
    requires |globals| > 0
    ensures UpdateCounts(globals + more, now) == UpdateCounts(globals, now)
  {
  }

  /** Non-negative totals below 100000 are shown as exactly five digits. */
  lemma UpdateCountsFiveDigits(globals: seq<GlobalVars>, now: string)
    requires |globals| > 0
    requires var g := globals[0];
      && 0 <= g.confirmCount < 100000 && 0 <= g.suspectCount < 100000
      && 0 <= g.deadCount < 100000 && 0 <= g.cure < 100000
    ensures var p := UpdateCounts(globals, now).value;
      && |p.confirmed| == 5 && AllDigits(p.confirmed)
      && |p.suspected| == 5 && AllDigits(p.suspected)
      && |p.dead| == 5 && AllDigits(p.dead)
      && |p.cured| == 5 && AllDigits(p.cured)
  {
    var g := globals[0];
    Format05dFiveWide(g.confirmCount);
    Format05dFiveWide(g.suspectCount);
    Format05dFiveWide(g.deadCount);
    Format05dFiveWide(g.cure);
  }
}

=== FILE: decimal.dfy ===
/** Decimal digit strings: Python's `str(n)` for integers, the `:05d`
    format specification, and the reading back of such strings. */
module Decimal {

  predicate IsDigit(c: char)
  {
    '0' <= c <= '9'
  }

  predicate AllDigits(s: string)
  {
    forall i :: 0 <= i < |s| ==> IsDigit(s[i])
  }

  function DigitValue(c: char): (v: nat)
    requires IsDigit(c)
    ensures v < 10
  {
    (c - '0') as nat
  }

  function DigitChar(v: nat): (c: char)
    requires v < 10
    ensures IsDigit(c) && DigitValue(c) == v
  {
    ('0' as int + v) as char
  }

  /** The value of a string of decimal digits, most significant first. */
  function ParseNat(s: string): nat
    requires AllDigits(s)
  {
    if |s| == 0 then 0 else ParseNat(s[..|s| - 1]) * 10 + DigitValue(s[|s| - 1])
  }

  /** The value of an optionally '-'-signed digit string, as Python's `int(s)`. */
  function ParseInt(s: string): int
    requires |s| > 0
    requires AllDigits(s) || (s[0] == '-' && AllDigits(s[1..]))
  {
    if s[0] == '-' then -(ParseNat(s[1..]) as int) else ParseNat(s)
  }

  /** Python's `str(n)` for a non-negative int: the shortest digit string of
      `n`, which has no leading zero unless it is "0". */
  function Digits(n: nat): (s: string)
    ensures |s| >= 1 && AllDigits(s)
    ensures ParseNat(s) == n
    ensures s[0] == '0' ==> n == 0
  {
    if n < 10 then [DigitChar(n)]
    else
      var front := Digits(n / 10);
      var s := front + [DigitChar(n % 10)];
      assert s[..|s| - 1] == front;
      s
  }

  /** The number of decimal digits of `n`, defined without strings. */
  function NumDigits(n: nat): (k: nat)
    ensures k >= 1
  {
    if n < 10 then 1 else 1 + NumDigits(n / 10)
  }

  function Pow10(k: nat): (p: nat)
    ensures p >= 1
  {
    if k == 0 then 1 else 10 * Pow10(k - 1)
  }

  /** `str(n)` has exactly NumDigits(n) characters. For n >= 1, NumDigits(n)
      is the k with 10^(k-1) <= n < 10^k; NumDigits(0) is 1. */
  lemma {:induction false} DigitsLength(n: nat)
    ensures |Digits(n)| == NumDigits(n)
    ensures n < Pow10(NumDigits(n))
    ensures n >= 1 ==> Pow10(NumDigits(n) - 1) <= n
    ensures n == 0 ==> NumDigits(n) == 1
  {
    if n >= 10 {
      DigitsLength(n / 10);
    }
  }

  function Zeros(k: nat): (z: string)
    ensures |z| == k && AllDigits(z)
    ensures forall i :: 0 <= i < k ==> z[i] == '0'
  {
    if k == 0 then "" else Zeros(k - 1) + "0"
  }

  /** Left-pads `s` with '0' up to `width` characters; a longer `s` is kept whole. */
  function ZeroPad(s: string, width: nat): (r: string)
  {
    if |s| < width then Zeros(width - |s|) + s else s
  }

  /** Zero padding widens a digit string to `width` without changing its value. */
  lemma ZeroPadKeepsValue(s: string, width: nat)
    requires AllDigits(s)
    ensures AllDigits(ZeroPad(s, width))
    ensures |ZeroPad(s, width)| == Max(width, |s|)
    ensures ParseNat(ZeroPad(s, width)) == ParseNat(s)
  {
    if |s| < width {
      ParseNatLeadingZeros(width - |s|, s);
    }
  }

  function Max(a: int, b: int): int
  {
    if a < b then b else a
  }

  /** Leading zeros do not change the value of a digit string. */
  lemma {:induction false} ParseNatLeadingZeros(k: nat, s: string)
    requires AllDigits(s)
    ensures AllDigits(Zeros(k) + s)
    ensures ParseNat(Zeros(k) + s) == ParseNat(s)
  {
    var t := Zeros(k) + s;
    assert forall i :: 0 <= i < |t| ==> IsDigit(t[i]) by {
      forall i | 0 <= i < |t|
        ensures IsDigit(t[i])
      {
        if i >= k {
          assert t[i] == s[i - k];
        }
      }
    }
    if |s| == 0 {
      assert t == Zeros(k);
      ParseNatZeros(k);
    } else {
      var s' := s[..|s| - 1];
      assert t[..|t| - 1] == Zeros(k) + s';
      ParseNatLeadingZeros(k, s');
    }
  }

  lemma {:induction false} ParseNatZeros(k: nat)
    ensures ParseNat(Zeros(k)) == 0
  {
    if k > 0 {
      var z := Zeros(k);
      assert z[..k - 1] == Zeros(k - 1);
      ParseNatZeros(k - 1);
      assert DigitValue(z[k - 1]) == 0;
      assert ParseNat(z) == ParseNat(Zeros(k - 1)) * 10 + 0;
    }
  }

  /** Python's `f"{x:05d}"`: the decimal form of `x` right-aligned in five
      characters, zero-filled after the sign. Negative values keep their '-'
      in front and pad the magnitude to four digits; longer numbers are
      never truncated. The result reads back as `x`. */
  function Format05d(x: int): (r: string)
    ensures x >= 0 ==> AllDigits(r) && |r| == Max(5, NumDigits(x))
    ensures x < 0 ==> |r| == Max(5, 1 + NumDigits(-x)) && r[0] == '-' && AllDigits(r[1..])
    ensures |r| > 0 && (AllDigits(r) || (r[0] == '-' && AllDigits(r[1..])))
    ensures ParseInt(r) == x
  {
    if x >= 0 then PaddedMagnitude(x, 5)
    else
      var m := PaddedMagnitude(-x, 4);
      var r := "-" + m;
      assert r[1..] == m;
      r
  }

  /** `str(n)` zero-filled to `width` digits. */
  function PaddedMagnitude(n: nat, width: nat): (r: string)
    ensures AllDigits(r) && |r| == Max(width, NumDigits(n)) && ParseNat(r) == n
  {
    DigitsLength(n);
    ZeroPadKeepsValue(Digits(n), width);
    ZeroPad(Digits(n), width)
  }

  /** Distinct totals give distinct counter strings. */
  lemma Format05dInjective(x: int, y: int)
    requires Format05d(x) == Format05d(y)
    ensures x == y
  {
  }

  /** Every total from 0 to 99999 fills the five-character counter exactly. */
  lemma {:induction false} Format05dFiveWide(x: int)
    requires 0 <= x < 100000
    ensures |Format05d(x)| == 5
  {
    DigitsLength(x);
    assert Pow10(5) == 100000;
    if NumDigits(x) > 5 {
      Pow10Monotone(5, NumDigits(x) - 1);
    }
  }

  lemma {:induction false} Pow10Monotone(a: nat, b: nat)
    requires a <= b
    ensures Pow10(a) <= Pow10(b)
  {
    if a < b {
      Pow10Monotone(a, b - 1);
    }
  }

  /** The two branches of Format05d in terms of `str`. */
  lemma Format05dByParts(x: int)
    ensures x >= 0 ==> Format05d(x) == ZeroPad(Digits(x), 5)
    ensures x < 0 ==> Format05d(x) == "-" + ZeroPad(Digits(-x), 4)
  {
  }

  lemma DigitsExamples()
    ensures Digits(5) == "5" && Digits(42) == "42" && Digits(123456) == "123456"
  {
    assert Digits(12) == "12";
    assert Digits(1234) == "1234";
  }

  /** Zeros go after the sign: 42 is shown as "00042" and -5 as "-0005". */
  lemma Format05dExamples()
    ensures Format05d(42) == "00042"
    ensures Format05d(-5) == "-0005"
    ensures Format05d(123456) == "123456"
  {
    Format05dByParts(42);
    Format05dByParts(-5);
    Format05dByParts(123456);
    DigitsExamples();
    assert Zeros(3) == "000";
  }
}

=== FILE: errors.dfy ===
/** The failures the refresh callbacks can raise while reshaping a payload,
    and a failure-compatible Result type so that `:-` propagates them. */
module Errors {

  /** The exceptions the reshaping code raises, one constructor per kind,
      and the one failure of the corrected date handling. */
  datatype Error =
    /** ValueError: `zip(*[])` yields nothing, which cannot be unpacked into five names */
    | UnpackEmpty
    /** KeyError: a dictionary lookup of a key that is absent */
    | MissingKey(key: string)
    /** IndexError: `[0]` on an empty list */
    | IndexOutOfRange
    /** A date that is not of the form "M/D" with one- or two-digit parts.
        The code never raises this; only the corrected trend in `Chronology`,
        which must read the month and day, rejects such a date. */
    | MalformedDate(date: string)

  /** A value that may be absent, such as a dictionary key that may be
      missing. */
  datatype Option<+T> = None | Some(value: T)

  /** Either the reshaped value or the exception the callback would raise. */
  datatype Result<+T> = Ok(value: T) | Err(error: Error) {

    predicate IsFailure() {
      Err?
    }

    function PropagateFailure<U>(): Result<U>
      requires Err?
    {
      Err(error)
    }

    function Extract(): T
      requires Ok?
    {
      value
    }
  }
}

=== FILE: regions.dfy ===
/** The reshaping inside `update_province_map` and `update_city_map`: the
    `getAreaStat` province records become a province table keyed for the
    province map, and a city table in which the municipalities stand in for
    their own cities. */
module Regions {
  import opened Errors
  import opened Text

  /** One element of a province's `cities` list. */
  datatype City = City(
    cityName: string,
    confirmedCount: int,
    suspectedCount: int,
    curedCount: int,
    deadCount: int)

  /** One element of `getAreaStat`. `cities` is None when the key is absent. */
  datatype Province = Province(
    provinceName: string,
    provinceShortName: string,
    confirmedCount: int,
    suspectedCount: int,
    curedCount: int,
    deadCount: int,
    cities: Option<seq<City>>)

  /** One row of a region table: a region name and its four counts, in the
      order confirmed, suspected, cured, dead. */
  datatype Row = Row(name: string, confirmed: int, suspected: int, cured: int, dead: int)

  /** A region table as the five parallel sequences the callbacks build. */
  datatype Table = Table(
    names: seq<string>,
    confirmeds: seq<int>,
    suspecteds: seq<int>,
    cureds: seq<int>,
    deads: seq<int>)

  /** All five columns have the same length. */
  predicate Aligned(t: Table)
  {
    && |t.confirmeds| == |t.names|
    && |t.suspecteds| == |t.names|
    && |t.cureds| == |t.names|
    && |t.deads| == |t.names|
  }

  /** The i-th row of aligned columns. */
  function Rows(t: Table): (rs: seq<Row>)
    requires Aligned(t)
    ensures |rs| == |t.names|
  {
    seq(|t.names|, i requires 0 <= i < |t.names| =>
      Row(t.names[i], t.confirmeds[i], t.suspecteds[i], t.cureds[i], t.deads[i]))
  }

  /** The columns of a sequence of rows. */
  function Columns(rs: seq<Row>): (t: Table)
    ensures Aligned(t) && |t.names| == |rs|
  {
    Table(
      seq(|rs|, i requires 0 <= i < |rs| => rs[i].name),
      seq(|rs|, i requires 0 <= i < |rs| => rs[i].confirmed),
      seq(|rs|, i requires 0 <= i < |rs| => rs[i].suspected),
      seq(|rs|, i requires 0 <= i < |rs| => rs[i].cured),
      seq(|rs|, i requires 0 <= i < |rs| => rs[i].dead))
  }

  /** Rows and columns are two views of the same table. */
  lemma RowsColumns(rs: seq<Row>)
    ensures Rows(Columns(rs)) == rs
  {
  }

  lemma ColumnsRows(t: Table)
    requires Aligned(t)
    ensures Columns(Rows(t)) == t
  {
  }

  // ---------------------------------------------------------------- provinces

  /** `name.rstrip("省").rstrip("市")`: the province name with its trailing
      province suffixes, then its trailing municipality suffixes, removed. The
      key is a prefix of the name, only '省' and '市' characters are removed,
      and the key does not end in '市'. */
  function JoinKey(name: string): (key: string)
    ensures key <= name
    ensures forall i :: |key| <= i < |name| ==> name[i] == '省' || name[i] == '市'
    ensures |key| == 0 || key[|key| - 1] != '市'
    ensures forall i, j :: |key| <= i < j < |name| && name[i] == '省' ==> name[j] == '省'
    ensures |key| > 0 && key[|key| - 1] == '省' ==> |key| < |name| && name[|key|] == '市'
  {
    RStrip(RStrip(name, '省'), '市')
  }

  /** The facts in JoinKey's contract determine the key: the removed tail is
      a run of '市' followed by a run of '省', and the key ends in '省' only
      when a '市' was removed after it. */
  lemma JoinKeyUnique(name: string, key: string)
    requires key <= name
    requires forall i :: |key| <= i < |name| ==> name[i] == '省' || name[i] == '市'
    requires |key| == 0 || key[|key| - 1] != '市'
    requires forall i, j :: |key| <= i < j < |name| && name[i] == '省' ==> name[j] == '省'
    requires |key| > 0 && key[|key| - 1] == '省' ==> |key| < |name| && name[|key|] == '市'
    ensures JoinKey(name) == key
  {
  }

  /** A name ending in neither suffix is its own key. */
  lemma JoinKeyKeepsPlainNames(name: string)
    requires |name| == 0 || (name[|name| - 1] != '省' && name[|name| - 1] != '市')
    ensures JoinKey(name) == name
  {
    RStripUnique(name, '省', name);
    RStripUnique(name, '市', name);
  }

  /** A key is unchanged by adding one province suffix, or one municipality
      suffix to a name that has no province suffix. */
  lemma JoinKeyDropsSuffix(name: string)
    ensures JoinKey(name + "省") == JoinKey(name)
    ensures (|name| == 0 || name[|name| - 1] != '省') ==> JoinKey(name + "市") == JoinKey(name)
  {
    assert (name + "省")[..|name|] == name;
    assert (name + "市")[..|name|] == name;
    if |name| == 0 || name[|name| - 1] != '省' {
      RStripUnique(name + "市", '省', name + "市");
      RStripUnique(name, '省', name);
    }
  }

  lemma JoinKeyExamples()
    ensures JoinKey("湖北省") == "湖北"
    ensures JoinKey("北京市") == "北京"
    ensures JoinKey("香港") == "香港"
  {
    JoinKeyDropsSuffix("湖北");
    JoinKeyDropsSuffix("北京");
    JoinKeyKeepsPlainNames("湖北");
    JoinKeyKeepsPlainNames("北京");
    JoinKeyKeepsPlainNames("香港");
  }

  /** The province-table row of one record. */
  function ProvinceRow(p: Province): Row
  {
    Row(JoinKey(p.provinceName), p.confirmedCount, p.suspectedCount, p.curedCount, p.deadCount)
  }

  /** The reshaping of `update_province_map`: one row per province, in input
      order, keyed by JoinKey with its counts copied. An empty list makes the
      five-name unpacking of `zip()` fail. */
  function ProvinceTable(data: seq<Province>): (r: Result<Table>)
    ensures r.Err? <==> |data| == 0
    ensures r.Err? ==> r.error == UnpackEmpty
    ensures r.Ok? ==> Aligned(r.value) && |r.value.names| == |data|
    ensures r.Ok? ==> forall i :: 0 <= i < |data| ==>
      && r.value.names[i] == JoinKey(data[i].provinceName)
      && r.value.confirmeds[i] == data[i].confirmedCount
      && r.value.suspecteds[i] == data[i].suspectedCount
      && r.value.cureds[i] == data[i].curedCount
      && r.value.deads[i] == data[i].deadCount
  {
    if |data| == 0 then Err(UnpackEmpty)
    else Ok(Columns(seq(|data|, i requires 0 <= i < |data| => ProvinceRow(data[i]))))
  }

  // ------------------------------------------------------------------- cities

  /** The province-level regions shown on the city map as single cities. */
  const Municipalities: seq<string> := ["北京", "上海", "天津", "重庆", "台湾"]

  predicate IsMunicipality(p: Province)
  {
    p.provinceShortName in Municipalities
  }

  function CityRow(c: City): Row
  {
    Row(c.cityName, c.confirmedCount, c.suspectedCount, c.curedCount, c.deadCount)
  }

  /** The city-table rows one province contributes: its own counts under its
      short name for a municipality, else one row per entry of `cities`,
      which must then be present. */
  function ProvinceCityRows(p: Province): (r: Result<seq<Row>>)
    ensures r.Err? <==> !IsMunicipality(p) && p.cities.None?
    ensures r.Err? ==> r.error == MissingKey("cities")
    ensures r.Ok? ==> |r.value| == RowsOf(p)
    ensures r.Ok? && IsMunicipality(p) ==>
      r.value == [Row(p.provinceShortName, p.confirmedCount, p.suspectedCount, p.curedCount, p.deadCount)]
    ensures r.Ok? && !IsMunicipality(p) ==>
      forall k :: 0 <= k < |r.value| ==> r.value[k] == CityRow(p.cities.value[k])
  {
    if IsMunicipality(p) then
      Ok([Row(p.provinceShortName, p.confirmedCount, p.suspectedCount, p.curedCount, p.deadCount)])
    else
      match p.cities
      case None => Err(MissingKey("cities"))
      case Some(cs) => Ok(seq(|cs|, k requires 0 <= k < |cs| => CityRow(cs[k])))
  }

  /** The rows of all provinces, concatenated in input order; the first
      province that fails stops the reshaping. */
  function CityRows(data: seq<Province>): (r: Result<seq<Row>>)
    ensures r.Err? ==> r.error == MissingKey("cities")
    ensures r.Ok? ==> forall i :: 0 <= i < |data| ==> ProvinceCityRows(data[i]).Ok?
  {
    if |data| == 0 then Ok([])
    else
      var front :- CityRows(data[..|data| - 1]);
      var last :- ProvinceCityRows(data[|data| - 1]);
      Ok(front + last)
  }

  /** The number of city-table rows one province accounts for: one for a
      municipality, else the length of its `cities` list. */
  function RowsOf(p: Province): nat
  {
    if IsMunicipality(p) then 1
    else match p.cities
      case None => 0
      case Some(cs) => |cs|
  }

  /** The total of RowsOf over a province list. */
  function RowCount(data: seq<Province>): nat
  {
    if |data| == 0 then 0 else RowCount(data[..|data| - 1]) + RowsOf(data[|data| - 1])
  }

  /** Some non-municipality province has no `cities` key. */
  predicate LacksCities(data: seq<Province>)
  {
    exists i :: 0 <= i < |data| && !IsMunicipality(data[i]) && data[i].cities.None?
  }

  /** The city table fails exactly when a non-municipality province lacks
      `cities`, and then with a KeyError for that key; otherwise it has one
      row per municipality plus one per listed city. */
  lemma {:induction false} CityRowsOutcome(data: seq<Province>)
    ensures CityRows(data).Err? <==> LacksCities(data)
    ensures CityRows(data).Err? ==> CityRows(data).error == MissingKey("cities")
    ensures CityRows(data).Ok? ==> |CityRows(data).value| == RowCount(data)
  {
    if |data| > 0 {
      var front := data[..|data| - 1];
      CityRowsOutcome(front);
      assert forall j :: 0 <= j < |front| ==> front[j] == data[j];
      assert data == front + [data[|data| - 1]];
    }
  }

  lemma CityRowsOfNothing()
    ensures CityRows([]) == Ok([])
  {
  }

  /** Where province i's rows start in the city table. */
  function Offset(data: seq<Province>, i: nat): nat
    requires i <= |data|
  {
    RowCount(data[..i])
  }

  /** The rows of the first m provinces are a prefix of the whole table. */
  lemma {:induction false} CityRowsPrefix(data: seq<Province>, m: nat)
    requires CityRows(data).Ok?
    requires m <= |data|
    ensures CityRows(data[..m]).Ok?
    ensures CityRows(data[..m]).value <= CityRows(data).value
  {
    var n := |data|;
    if m == n {
      assert data[..m] == data;
    } else {
      var front := data[..n - 1];
      CityRowsPrefix(front, m);
      assert front[..m] == data[..m];
    }
  }

  /** Province i's rows sit at positions Offset(data, i) up to
      Offset(data, i + 1), in the table's order, and are exactly the rows it
      contributes on its own. */
  lemma {:induction false} CityRowsPlacement(data: seq<Province>, i: nat)
    requires CityRows(data).Ok?
    requires i < |data|
    ensures ProvinceCityRows(data[i]).Ok?
    ensures Offset(data, i) + RowsOf(data[i]) == Offset(data, i + 1) <= |CityRows(data).value|
    ensures CityRows(data).value[Offset(data, i)..Offset(data, i + 1)]
      == ProvinceCityRows(data[i]).value
  {
    var upto := data[..i + 1];
    CityRowsPrefix(data, i + 1);
    assert upto[..i] == data[..i] && upto[i] == data[i];
    CityRowsOutcome(data[..i]);
    CityRowsOutcome(upto);
    var block := ProvinceCityRows(data[i]).value;
    assert CityRows(upto).value == CityRows(data[..i]).value + block;
  }

  /** A municipality contributes exactly one row, named by its short name and
      carrying the province's own counts. */
  lemma MunicipalityRow(data: seq<Province>, i: nat)
    requires CityRows(data).Ok?
    requires i < |data| && IsMunicipality(data[i])
    ensures Offset(data, i) < |CityRows(data).value|
    ensures CityRows(data).value[Offset(data, i)] == Row(data[i].provinceShortName,
      data[i].confirmedCount, data[i].suspectedCount, data[i].curedCount, data[i].deadCount)
  {
    CityRowsPlacement(data, i);
  }

  /** Any other province contributes its cities' rows, one per city, in the
      order of its `cities` list. */
  lemma CityRowsOfProvince(data: seq<Province>, i: nat, k: nat)
    requires CityRows(data).Ok?
    requires i < |data| && !IsMunicipality(data[i])
    ensures data[i].cities.Some?
    ensures k < |data[i].cities.value| ==>
      && Offset(data, i) + k < |CityRows(data).value|
      && CityRows(data).value[Offset(data, i) + k] == CityRow(data[i].cities.value[k])
  {
    CityRowsPlacement(data, i);
    if k < |data[i].cities.value| {
      var rows := CityRows(data).value;
      var o := Offset(data, i);
      assert rows[o + k] == rows[o..Offset(data, i + 1)][k];
    }
  }

  /** A municipality's `cities` field is never read: replacing it, or
      removing it, leaves the city table unchanged. */
  lemma {:induction false} MunicipalityCitiesIgnored(data: seq<Province>, i: nat, cs: Option<seq<City>>)
    requires i < |data| && IsMunicipality(data[i])
    ensures CityRows(data[i := data[i].(cities := cs)]) == CityRows(data)
  {
    var data' := data[i := data[i].(cities := cs)];
    var n := |data|;
    if i < n - 1 {
      assert data'[..n - 1] == data[..n - 1][i := data[i].(cities := cs)];
      MunicipalityCitiesIgnored(data[..n - 1], i, cs);
    } else {
      assert data'[..n - 1] == data[..n - 1];
    }
  }

  /** `update_city_map`'s loop: walks the provinces, appending to five
      parallel lists, and raises a KeyError at the first non-municipality
      province without `cities`. */
  method FlattenCities(data: seq<Province>) returns (r: Result<Table>)
    ensures r.Err? <==> CityRows(data).Err?
    ensures r.Err? ==> r.error == MissingKey("cities")
    ensures r.Ok? ==> Aligned(r.value) && Rows(r.value) == CityRows(data).value
  {
    var cities: seq<string> := [];
    var confirmeds: seq<int> := [];
    var suspecteds: seq<int> := [];
    var cureds: seq<int> := [];
    var deads: seq<int> := [];
    var i := 0;
    while i < |data|
      invariant 0 <= i <= |data|
      invariant Aligned(Table(cities, confirmeds, suspecteds, cureds, deads))
      invariant CityRows(data[..i]) == Ok(Rows(Table(cities, confirmeds, suspecteds, cureds, deads)))
    {
      var province := data[i];
      ghost var before := Rows(Table(cities, confirmeds, suspecteds, cureds, deads));
      assert data[..i + 1][..i] == data[..i];
      if province.provinceShortName in Municipalities {
        RowsAppend(Table(cities, confirmeds, suspecteds, cureds, deads),
          province.provinceShortName, province.confirmedCount, province.suspectedCount,
          province.curedCount, province.deadCount);
        cities := cities + [province.provinceShortName];
        confirmeds := confirmeds + [province.confirmedCount];
        suspecteds := suspecteds + [province.suspectedCount];
        cureds := cureds + [province.curedCount];
        deads := deads + [province.deadCount];
      } else {
        match province.cities
        case None =>
          CityRowsPrefixFails(data, i + 1);
          return Err(MissingKey("cities"));
        case Some(cs) =>
          var k := 0;
          while k < |cs|
            invariant 0 <= k <= |cs|
            invariant Aligned(Table(cities, confirmeds, suspecteds, cureds, deads))
            invariant Rows(Table(cities, confirmeds, suspecteds, cureds, deads))
              == before + seq(k, j requires 0 <= j < k => CityRow(cs[j]))
          {
            var city := cs[k];
            RowsAppend(Table(cities, confirmeds, suspecteds, cureds, deads),
              city.cityName, city.confirmedCount, city.suspectedCount,
              city.curedCount, city.deadCount);
            assert seq(k + 1, j requires 0 <= j < k + 1 => CityRow(cs[j]))
              == seq(k, j requires 0 <= j < k => CityRow(cs[j])) + [CityRow(city)];
            cities := cities + [city.cityName];
            confirmeds := confirmeds + [city.confirmedCount];
            suspecteds := suspecteds + [city.suspectedCount];
            cureds := cureds + [city.curedCount];
            deads := deads + [city.deadCount];
            k := k + 1;
          }
          assert seq(k, j requires 0 <= j < k => CityRow(cs[j])) == ProvinceCityRows(province).value;
      }
      i := i + 1;
    }
    assert data[..i] == data;
    return Ok(Table(cities, confirmeds, suspecteds, cureds, deads));
  }

  /** Appending one value to each column appends one row. */
  lemma RowsAppend(t: Table, name: string, confirmed: int, suspected: int, cured: int, dead: int)
    requires Aligned(t)
    ensures var t' := Table(t.names + [name], t.confirmeds + [confirmed],
      t.suspecteds + [suspected], t.cureds + [cured], t.deads + [dead]);
      Aligned(t') && Rows(t') == Rows(t) + [Row(name, confirmed, suspected, cured, dead)]
  {
  }

  /** Once a prefix fails, the whole list fails. */
  lemma {:induction false} CityRowsPrefixFails(data: seq<Province>, i: nat)
    requires i <= |data| && CityRows(data[..i]).Err?
    ensures CityRows(data).Err?
  {
    if i < |data| {
      var n := |data|;
      assert data[..n - 1][..i] == data[..i];
      CityRowsPrefixFails(data[..n - 1], i);
    } else {
      assert data[..i] == data;
    }
  }
}

=== FILE: sorting.dfy ===
/** Python's `sorted` applied to the trend's 5-tuples
    `(date, confirm, suspect, dead, heal)`, under Python's tuple ordering. */
module Sorting {
  import opened Text

  /** One 5-tuple of the trend: a normalised date string and four counts. */
  datatype Entry = Entry(date: string, confirm: int, suspect: int, dead: int, heal: int)

  /** Python's `a < b` on such tuples: the first unequal component decides,
      strings by StrLt and ints numerically. The date is the primary key: a
      smaller date puts a tuple first whatever its counts, and a tuple with
      the larger date is never the smaller one. No tuple is below itself. */
  function EntryLt(a: Entry, b: Entry): (r: bool)
    ensures r ==> a != b
    ensures StrLt(a.date, b.date) ==> r
    ensures r ==> StrLe(a.date, b.date)
  {
    StrLtIrreflexive(a.date);
    if a.date != b.date then StrLt(a.date, b.date)
    else if a.confirm != b.confirm then a.confirm < b.confirm
    else if a.suspect != b.suspect then a.suspect < b.suspect
    else if a.dead != b.dead then a.dead < b.dead
    else a.heal < b.heal
  }

  predicate EntryLe(a: Entry, b: Entry)
  {
    a == b || EntryLt(a, b)
  }

  /** Tuple ordering is a total order: total, antisymmetric and transitive. */
  lemma EntryLeTotal(a: Entry, b: Entry)
    ensures EntryLe(a, b) || EntryLe(b, a)
  {
    StrLtTrichotomy(a.date, b.date);
  }

  lemma EntryLeAntisymmetric(a: Entry, b: Entry)
    requires EntryLe(a, b) && EntryLe(b, a)
    ensures a == b
  {
    StrLtAsymmetric(a.date, b.date);
  }

  lemma EntryLeTransitive(a: Entry, b: Entry, c: Entry)
    requires EntryLe(a, b) && EntryLe(b, c)
    ensures EntryLe(a, c)
  {
    if a.date != b.date && b.date != c.date {
      StrLtTransitive(a.date, b.date, c.date);
      if a.date == c.date {
        StrLtAsymmetric(a.date, b.date);
      }
    }
  }

  /** Every earlier entry is at most every later one. */
  predicate Sorted(s: seq<Entry>)
  {
    forall i, j :: 0 <= i < j < |s| ==> EntryLe(s[i], s[j])
  }

  /** Inserts `x` into a sorted sequence before the first entry above it. */
  function Insert(x: Entry, s: seq<Entry>): (r: seq<Entry>)
    requires Sorted(s)
    ensures Sorted(r)
    ensures multiset(r) == multiset(s) + multiset{x}
    ensures |r| == |s| + 1
  {
    if |s| == 0 then [x]
    else if EntryLe(x, s[0]) then
      InsertFrontSorted(x, s);
      [x] + s
    else
      EntryLeTotal(x, s[0]);
      var tail := Insert(x, s[1..]);
      InsertAfterHeadSorted(s[0], x, s[1..], tail);
      assert s == [s[0]] + s[1..];
      [s[0]] + tail
  }

  lemma InsertFrontSorted(x: Entry, s: seq<Entry>)
    requires Sorted(s) && |s| > 0 && EntryLe(x, s[0])
    ensures Sorted([x] + s)
  {
    var r := [x] + s;
    forall i, j | 0 <= i < j < |r|
      ensures EntryLe(r[i], r[j])
    {
      if i == 0 && j > 1 {
        EntryLeTransitive(x, s[0], s[j - 1]);
      }
    }
  }

  lemma InsertAfterHeadSorted(h: Entry, x: Entry, s: seq<Entry>, tail: seq<Entry>)
    requires Sorted([h] + s) && EntryLe(h, x)
    requires Sorted(tail) && multiset(tail) == multiset(s) + multiset{x}
    ensures Sorted([h] + tail)
  {
    var r := [h] + tail;
    forall i, j | 0 <= i < j < |r|
      ensures EntryLe(r[i], r[j])
    {
      if i == 0 {
        var y := tail[j - 1];
        assert y in multiset(tail);
        if y != x {
          assert y in multiset(s);
          var k :| 0 <= k < |s| && s[k] == y;
          assert ([h] + s)[k + 1] == y;
          assert ([h] + s)[0] == h;
        }
      } else {
        assert r[i] == tail[i - 1] && r[j] == tail[j - 1];
      }
    }
  }

  /** Insertion sort: the sorted permutation of `s`. */
  function Sort(s: seq<Entry>): (r: seq<Entry>)
    ensures Sorted(r)
    ensures multiset(r) == multiset(s)
    ensures |r| == |s|
  {
    if |s| == 0 then []
    else
      assert s == [s[0]] + s[1..];
      Insert(s[0], Sort(s[1..]))
  }

  /** A sorted permutation is unique: any two sorted sequences holding the
      same entries are equal. So Sort agrees with Python's `sorted`, whatever
      algorithm computes it. */
  lemma {:induction false} SortedPermutationUnique(a: seq<Entry>, b: seq<Entry>)
    requires Sorted(a) && Sorted(b)
    requires multiset(a) == multiset(b)
    ensures a == b
  {
    if |a| == 0 {
      assert |multiset(b)| == 0;
    } else {
      assert a[0] in multiset(b);
      HeadIsLeast(a, b[0]);
      HeadIsLeast(b, a[0]);
      EntryLeAntisymmetric(a[0], b[0]);
      MultisetTail(a);
      MultisetTail(b);
      SortedPermutationUnique(a[1..], b[1..]);
      assert a == [a[0]] + a[1..] && b == [b[0]] + b[1..];
    }
  }

  /** The head of a sorted sequence is at most every entry in it. */
  lemma HeadIsLeast(s: seq<Entry>, x: Entry)
    requires Sorted(s) && x in multiset(s)
    ensures |s| > 0 && EntryLe(s[0], x)
  {
    var i :| 0 <= i < |s| && s[i] == x;
    if i > 0 {
      assert EntryLe(s[0], s[i]);
    }
  }

  lemma MultisetTail(s: seq<Entry>)
    requires |s| > 0
    ensures multiset(s[1..]) == multiset(s) - multiset{s[0]}
  {
    assert s == [s[0]] + s[1..];
  }

  /** Sorting an already sorted sequence leaves it unchanged. */
  lemma SortSortedIsIdentity(s: seq<Entry>)
    requires Sorted(s)
    ensures Sort(s) == s
  {
    SortedPermutationUnique(Sort(s), s);
  }

  /** The result of sorting depends only on which entries there are, not on
      their input order. */
  lemma SortPermutationInvariant(a: seq<Entry>, b: seq<Entry>)
    requires multiset(a) == multiset(b)
    ensures Sort(a) == Sort(b)
  {
    SortedPermutationUnique(Sort(a), Sort(b));
  }
}

=== FILE: text.dfy ===
/** The string operations the callbacks use: `str.split`, `str.join`,
    `str.rstrip` with a one-character argument, and Python's ordering of
    `str` values. Strings are sequences of Unicode scalar values. */
module Text {

  /** `s` with every occurrence of `c` replaced by `d`. */
  function ReplaceChar(s: string, c: char, d: char): (r: string)
    ensures |r| == |s|
    ensures forall i :: 0 <= i < |s| ==> r[i] == (if s[i] == c then d else s[i])
  {
    if |s| == 0 then "" else [if s[0] == c then d else s[0]] + ReplaceChar(s[1..], c, d)
  }

  /** The number of occurrences of `c` in `s`. */
  function Count(s: string, c: char): nat
  {
    if |s| == 0 then 0 else (if s[0] == c then 1 else 0) + Count(s[1..], c)
  }

  /** Python's `s.split(sep)` for a one-character separator: the maximal
      separator-free pieces between occurrences of `sep`; "" splits into [""]. */
  function Split(s: string, sep: char): (parts: seq<string>)
    ensures |parts| == Count(s, sep) + 1
    ensures forall i :: 0 <= i < |parts| ==> sep !in parts[i]
  {
    if |s| == 0 then [""]
    else
      var rest := Split(s[1..], sep);
      if s[0] == sep then [""] + rest
      else [[s[0]] + rest[0]] + rest[1..]
  }

  /** A string free of `sep` splits into itself alone. */
  lemma {:induction false} SplitWhole(s: string, sep: char)
    requires sep !in s
    ensures Split(s, sep) == [s]
  {
    if |s| > 0 {
      SplitWhole(s[1..], sep);
      assert [s[0]] + s[1..] == s;
    }
  }

  /** A separator-free piece followed by the separator splits off as the
      first part. */
  lemma {:induction false} SplitAfterPiece(a: string, b: string, sep: char)
    requires sep !in a
    ensures Split(a + [sep] + b, sep) == [a] + Split(b, sep)
  {
    var s := a + [sep] + b;
    if |a| == 0 {
      assert s == [sep] + b && s[1..] == b;
    } else {
      assert s[1..] == a[1..] + [sep] + b;
      SplitAfterPiece(a[1..], b, sep);
      assert [a[0]] + a[1..] == a;
    }
  }

  /** One separator between two separator-free pieces splits into the two. */
  lemma {:induction false} SplitOnce(a: string, b: string, sep: char)
    requires sep !in a && sep !in b
    ensures Split(a + [sep] + b, sep) == [a, b]
  {
    var s := a + [sep] + b;
    if |a| == 0 {
      assert s == [sep] + b && s[1..] == b;
      SplitWhole(b, sep);
    } else {
      assert s[1..] == a[1..] + [sep] + b;
      SplitOnce(a[1..], b, sep);
      assert [a[0]] + a[1..] == a;
    }
  }

  /** Python's `sep.join(parts)` for a one-character separator. */
  function Join(sep: char, parts: seq<string>): (r: string)
    ensures |parts| >= 1 && (forall i :: 0 <= i < |parts| ==> sep !in parts[i]) ==>
      Split(r, sep) == parts
  {
    if |parts| == 0 then ""
    else if |parts| == 1 then
      assert sep !in parts[0] ==> Split(parts[0], sep) == [parts[0]] by {
        if sep !in parts[0] { SplitWhole(parts[0], sep); }
      }
      parts[0]
    else
      var rest := Join(sep, parts[1..]);
      assert sep !in parts[0] ==> Split(parts[0] + [sep] + rest, sep) == [parts[0]] + Split(rest, sep) by {
        if sep !in parts[0] { SplitAfterPiece(parts[0], rest, sep); }
      }
      assert parts == [parts[0]] + parts[1..];
      parts[0] + [sep] + rest
  }

  /** Splitting on `c` and joining with `d` replaces every `c` by `d`. */
  lemma {:induction false} JoinSplitReplaces(s: string, c: char, d: char)
    ensures Join(d, Split(s, c)) == ReplaceChar(s, c, d)
  {
    if |s| > 0 {
      JoinSplitReplaces(s[1..], c, d);
      var rest := Split(s[1..], c);
      if s[0] != c && |rest| > 1 {
        assert rest == [rest[0]] + rest[1..];
        assert Join(d, rest) == rest[0] + [d] + Join(d, rest[1..]);
      }
    }
  }

  /** Splitting and joining with the same character gives the string back. */
  lemma JoinSplitRoundTrip(s: string, c: char)
    ensures Join(c, Split(s, c)) == s
  {
    JoinSplitReplaces(s, c, c);
  }

  /** Python's `s.rstrip(c)` for a one-character argument. */
  function RStrip(s: string, c: char): (r: string)
    ensures r <= s
    ensures |r| == 0 || r[|r| - 1] != c
    ensures forall i :: |r| <= i < |s| ==> s[i] == c
  {
    if |s| > 0 && s[|s| - 1] == c then RStrip(s[..|s| - 1], c) else s
  }

  /** The three properties in RStrip's contract determine its result: any
      prefix that does not end in `c` and leaves only `c`s behind is it. */
  lemma {:induction false} RStripUnique(s: string, c: char, r: string)
    requires r <= s
    requires |r| == 0 || r[|r| - 1] != c
    requires forall i :: |r| <= i < |s| ==> s[i] == c
    ensures RStrip(s, c) == r
  {
  }

  /** Stripping twice strips nothing more. */
  lemma RStripIdempotent(s: string, c: char)
    ensures RStrip(RStrip(s, c), c) == RStrip(s, c)
  {
    var r := RStrip(s, c);
    RStripUnique(r, c, r);
  }

  /** Python's `a < b` on `str`, computed character by character. */
  predicate StrLt(a: string, b: string)
  {
    if |a| == 0 then |b| > 0
    else if |b| == 0 then false
    else a[0] < b[0] || (a[0] == b[0] && StrLt(a[1..], b[1..]))
  }

  /** StrLt is lexicographic order as Python defines it for `str`: `a` is a
      proper prefix of `b`, or at the first position where they differ `a`
      has the smaller code point. */
  lemma {:induction false} StrLtIsLexicographic(a: string, b: string)
    ensures StrLt(a, b) <==> (
      || (|a| < |b| && a == b[..|a|])
      || exists k :: 0 <= k < |a| && k < |b| && a[..k] == b[..k] && a[k] < b[k])
  {
    if |a| > 0 && |b| > 0 {
      assert a[..0] == b[..0];
      if a[0] == b[0] {
        StrLtIsLexicographic(a[1..], b[1..]);
        assert (|a| < |b| && a == b[..|a|]) <==> (|a| - 1 < |b| - 1 && a[1..] == b[1..][..|a| - 1]) by {
          assert a == [a[0]] + a[1..];
          assert b[..|a|] == [b[0]] + b[1..][..|a| - 1] <== |a| <= |b|;
        }
        forall k | 0 <= k < |a| - 1 && k < |b| - 1
          ensures (a[..k + 1] == b[..k + 1]) <==> (a[1..][..k] == b[1..][..k])
        {
          assert a[..k + 1] == [a[0]] + a[1..][..k];
          assert b[..k + 1] == [b[0]] + b[1..][..k];
        }
      }
    }
  }

  /** Python's `a <= b` on `str`. */
  predicate StrLe(a: string, b: string)
  {
    a == b || StrLt(a, b)
  }

  lemma {:induction false} StrLtIrreflexive(a: string)
    ensures !StrLt(a, a)
  {
    if |a| > 0 {
      StrLtIrreflexive(a[1..]);
    }
  }

  lemma {:induction false} StrLtAsymmetric(a: string, b: string)
    ensures !(StrLt(a, b) && StrLt(b, a))
  {
    if |a| > 0 && |b| > 0 && a[0] == b[0] {
      StrLtAsymmetric(a[1..], b[1..]);
    }
  }

  lemma {:induction false} StrLtTransitive(a: string, b: string, c: string)
    requires StrLt(a, b) && StrLt(b, c)
    ensures StrLt(a, c)
  {
    if |a| > 0 && a[0] == b[0] && b[0] == c[0] {
      StrLtTransitive(a[1..], b[1..], c[1..]);
    }
  }

  /** Any two distinct strings are ordered one way or the other. */
  lemma {:induction false} StrLtTrichotomy(a: string, b: string)
    ensures a == b || StrLt(a, b) || StrLt(b, a)
  {
    if |a| > 0 && |b| > 0 && a[0] == b[0] {
      StrLtTrichotomy(a[1..], b[1..]);
      if a[1..] == b[1..] {
        assert a == [a[0]] + a[1..] && b == [b[0]] + b[1..];
      }
    }
  }

  /** Comparing strings that start with equal-length pieces compares those
      pieces first and the remainders only on a tie. */
  lemma {:induction false} StrLtConcat(x1: string, t1: string, x2: string, t2: string)
    requires |x1| == |x2|
    ensures StrLt(x1 + t1, x2 + t2) <==> StrLt(x1, x2) || (x1 == x2 && StrLt(t1, t2))
  {
    if |x1| == 0 {
      assert x1 + t1 == t1 && x2 + t2 == t2;
    } else {
      assert (x1 + t1)[1..] == x1[1..] + t1;
      assert (x2 + t2)[1..] == x2[1..] + t2;
      StrLtConcat(x1[1..], t1, x2[1..], t2);
      if x1[0] == x2[0] && x1[1..] == x2[1..] {
        assert x1 == [x1[0]] + x1[1..] && x2 == [x2[0]] + x2[1..];
      }
    }
  }
}

=== FILE: timeseries.dfy ===
/** The reshaping inside `update_graph`: the daily-count records become five
    index-aligned sequences (dates, confirmed, suspected, dead, cured),
    ordered by Python's tuple ordering. */
module TimeSeries {
  import opened Errors
  import opened Text
  import opened Sorting

  /** One element of `wuwei_ww_cn_day_counts`, keyed `date` ("M/D"),
      `confirm`, `suspect`, `dead` and `heal`. */
  datatype DayCount = DayCount(date: string, confirm: int, suspect: int, dead: int, heal: int)

  /** The five tuples unpacked from the final `zip`, in chart order. */
  datatype Trend = Trend(
    dates: seq<string>,
    confirmeds: seq<int>,
    suspecteds: seq<int>,
    deads: seq<int>,
    cureds: seq<int>)

  /** All five sequences have the same length. */
  predicate Aligned(t: Trend)
  {
    && |t.confirmeds| == |t.dates|
    && |t.suspecteds| == |t.dates|
    && |t.deads| == |t.dates|
    && |t.cureds| == |t.dates|
  }

  /** `f"2020-{'-'.join(d.split('/'))}"`: the year prefix, then `d` with every
      '/' turned into '-'. Nothing is padded or checked: "1/3" becomes
      "2020-1-3" and a string without '/' only gains the prefix. */
  function NormalizeDate(d: string): (r: string)
    ensures r == "2020-" + ReplaceChar(d, '/', '-')
    ensures |r| == |d| + 5
    ensures forall i :: 5 <= i < |r| ==> r[i] != '/'
  {
    JoinSplitReplaces(d, '/', '-');
    "2020-" + Join('-', Split(d, '/'))
  }

  /** The tuple `(date, confirm, suspect, dead, heal)` one record contributes,
      with its date normalised. */
  function ToEntry(rec: DayCount): Entry
  {
    Entry(NormalizeDate(rec.date), rec.confirm, rec.suspect, rec.dead, rec.heal)
  }

  function Entries(data: seq<DayCount>): (es: seq<Entry>)
    ensures |es| == |data|
    ensures forall i :: 0 <= i < |data| ==> es[i] == ToEntry(data[i])
  {
    MapSeq(ToEntry, data)
  }

  /** `zip(*rows)`: the columns of a sequence of tuples. */
  function Unzip(es: seq<Entry>): (t: Trend)
    ensures Aligned(t) && |t.dates| == |es|
  {
    Trend(
      seq(|es|, i requires 0 <= i < |es| => es[i].date),
      seq(|es|, i requires 0 <= i < |es| => es[i].confirm),
      seq(|es|, i requires 0 <= i < |es| => es[i].suspect),
      seq(|es|, i requires 0 <= i < |es| => es[i].dead),
      seq(|es|, i requires 0 <= i < |es| => es[i].heal))
  }

  /** `zip(dates, confirmeds, suspecteds, deads, cureds)`: the rows of aligned columns. */
  function Zip(t: Trend): (es: seq<Entry>)
    requires Aligned(t)
  {
    seq(|t.dates|, i requires 0 <= i < |t.dates| =>
      Entry(t.dates[i], t.confirmeds[i], t.suspecteds[i], t.deads[i], t.cureds[i]))
  }

  /** Unzipping then zipping gives the rows back, and zipping then unzipping
      gives the columns back. */
  lemma ZipUnzip(es: seq<Entry>)
    ensures Zip(Unzip(es)) == es
  {
  }

  lemma UnzipZip(t: Trend)
    requires Aligned(t)
    ensures Unzip(Zip(t)) == t
  {
  }

  /** The reshaping of `update_graph`. An empty record list makes the first
      five-name unpacking fail. Otherwise the result is the tuples of all
      records, one each, in Python's tuple order. */
  function BuildTrend(data: seq<DayCount>): (r: Result<Trend>)
    ensures r.Err? <==> |data| == 0
    ensures r.Err? ==> r.error == UnpackEmpty
    ensures r.Ok? ==> Aligned(r.value) && |r.value.dates| == |data|
    ensures r.Ok? ==> Sorted(Zip(r.value))
    ensures r.Ok? ==> multiset(Zip(r.value)) == multiset(Entries(data))
  {
    if |data| == 0 then Err(UnpackEmpty)
    else
      var rows := Sort(Entries(data));
      ZipUnzip(rows);
      Ok(Unzip(rows))
  }

  /** The result is the unique sorted arrangement of the records' tuples:
      whatever sorting algorithm is used, it is what Python's `sorted` returns. */
  lemma BuildTrendIsTheSortedArrangement(data: seq<DayCount>, rows: seq<Entry>)
    requires |data| > 0
    requires Sorted(rows) && multiset(rows) == multiset(Entries(data))
    ensures BuildTrend(data) == Ok(Unzip(rows))
  {
    var t := BuildTrend(data).value;
    SortedPermutationUnique(Zip(t), rows);
    UnzipZip(t);
  }

  function MapSeq<A, B>(f: A -> B, s: seq<A>): (r: seq<B>)
    ensures |r| == |s|
    ensures forall i :: 0 <= i < |s| ==> r[i] == f(s[i])
  {
    seq(|s|, i requires 0 <= i < |s| => f(s[i]))
  }

  lemma MapSeqConcat<A, B>(f: A -> B, u: seq<A>, v: seq<A>)
    ensures MapSeq(f, u + v) == MapSeq(f, u) + MapSeq(f, v)
  {
  }

  /** Removing position k from a sequence removes one occurrence of its
      element, before and after mapping. */
  lemma MapSeqRemove<A, B>(f: A -> B, b: seq<A>, k: int)
    requires 0 <= k < |b|
    ensures multiset(b[..k] + b[k + 1..]) + multiset{b[k]} == multiset(b)
    ensures multiset(MapSeq(f, b[..k] + b[k + 1..])) + multiset{f(b[k])} == multiset(MapSeq(f, b))
  {
    assert b == b[..k] + [b[k]] + b[k + 1..];
    MapSeqConcat(f, b[..k], b[k + 1..]);
    MapSeqConcat(f, b[..k], [b[k]]);
    MapSeqConcat(f, b[..k] + [b[k]], b[k + 1..]);
  }

  lemma IndexOf<T>(b: seq<T>, x: T) returns (k: int)
    requires x in multiset(b)
    ensures 0 <= k < |b| && b[k] == x
  {
    assert x in b;
    k :| 0 <= k < |b| && b[k] == x;
  }

  lemma MultisetCancel<T>(p: multiset<T>, q: multiset<T>, x: T)
    requires p + multiset{x} == q + multiset{x}
    ensures p == q
  {
    assert forall y :: p[y] == (p + multiset{x})[y] - multiset{x}[y];
    assert forall y :: q[y] == (q + multiset{x})[y] - multiset{x}[y];
  }

  /** Mapping a function over two rearrangements of the same elements gives
      two rearrangements of the same results. */
  lemma {:induction false} MapSeqPermutation<A, B>(f: A -> B, a: seq<A>, b: seq<A>)
    requires multiset(a) == multiset(b)
    ensures multiset(MapSeq(f, a)) == multiset(MapSeq(f, b))
    decreases |a|
  {
    if |a| == 0 {
      assert |multiset(b)| == 0;
    } else {
      var x := a[0];
      assert x in multiset(b);
      var k := IndexOf(b, x);
      var tail := a[..0] + a[1..];
      var rest := b[..k] + b[k + 1..];
      assert |tail| == |a| - 1;
      MapSeqRemove(f, a, 0);
      MapSeqRemove(f, b, k);
      MultisetCancel(multiset(tail), multiset(rest), x);
      MapSeqPermutation(f, tail, rest);
    }
  }

  /** The result does not depend on the order in which the records arrive. */
  lemma BuildTrendIgnoresInputOrder(a: seq<DayCount>, b: seq<DayCount>)
    requires multiset(a) == multiset(b)
    ensures BuildTrend(a) == BuildTrend(b)
  {
    assert |a| == |multiset(a)| == |multiset(b)| == |b|;
    MapSeqPermutation(ToEntry, a, b);
    SortPermutationInvariant(Entries(a), Entries(b));
  }

  /** Reading the result row by row: the dates never decrease in string order,
      and rows with equal dates are ordered by confirm, then suspect, then
      dead, then heal. */
  lemma BuildTrendColumnOrder(data: seq<DayCount>, i: int, j: int)
    requires BuildTrend(data).Ok?
    requires 0 <= i < j < |data|
    ensures var t := BuildTrend(data).value;
      var sameDate := t.dates[i] == t.dates[j];
      var sameConfirm := sameDate && t.confirmeds[i] == t.confirmeds[j];
      var sameSuspect := sameConfirm && t.suspecteds[i] == t.suspecteds[j];
      var sameDead := sameSuspect && t.deads[i] == t.deads[j];
      && StrLe(t.dates[i], t.dates[j])
      && (sameDate ==> t.confirmeds[i] <= t.confirmeds[j])
      && (sameConfirm ==> t.suspecteds[i] <= t.suspecteds[j])
      && (sameSuspect ==> t.deads[i] <= t.deads[j])
      && (sameDead ==> t.cureds[i] <= t.cureds[j])
  {
    var t := BuildTrend(data).value;
    assert EntryLe(Zip(t)[i], Zip(t)[j]);
  }

  /** Every row of the result is the tuple of some input record, and every
      input record's tuple appears in the result. */
  lemma BuildTrendRowsComeFromRecords(data: seq<DayCount>, i: int)
    requires BuildTrend(data).Ok?
    requires 0 <= i < |data|
    ensures exists k :: 0 <= k < |data| && Zip(BuildTrend(data).value)[i] == ToEntry(data[k])
    ensures ToEntry(data[i]) in Zip(BuildTrend(data).value)
  {
    var rows := Zip(BuildTrend(data).value);
    assert rows[i] in multiset(Entries(data));
    assert Entries(data)[i] in multiset(rows);
  }

  /** A month and a day without '/' around one '/' are rewritten around a '-'. */
  lemma NormalizeMonthDay(m: string, d: string)
    requires '/' !in m && '/' !in d
    ensures NormalizeDate(m + "/" + d) == "2020-" + m + "-" + d
  {
    var s := m + "/" + d;
    var r := ReplaceChar(s, '/', '-');
    assert forall i :: 0 <= i < |s| ==> r[i] == (m + "-" + d)[i];
    assert r == m + "-" + d;
  }

  lemma NormalizeDateExamples()
    ensures NormalizeDate("1/23") == "2020-1-23"
    ensures NormalizeDate("1/3") == "2020-1-3"
  {
    NormalizeMonthDay("1", "23");
    NormalizeMonthDay("1", "3");
    assert "1" + "/" + "23" == "1/23" && "2020-" + "1" + "-" + "23" == "2020-1-23";
    assert "1" + "/" + "3" == "1/3" && "2020-" + "1" + "-" + "3" == "2020-1-3";
  }

  lemma LateBeforeEarlyAsStrings()
    ensures StrLt("2020-1-23", "2020-1-3")
  {
    StrLtConcat("2020-1-", "23", "2020-1-", "3");
    assert "2020-1-" + "23" == "2020-1-23";
    assert "2020-1-" + "3" == "2020-1-3";
  }

  /** Of two records, the one whose normalised date is the smaller string
      comes first, whatever order they arrive in. */
  lemma {:induction false} BuildTrendOfTwo(first: DayCount, second: DayCount)
    requires StrLt(NormalizeDate(second.date), NormalizeDate(first.date))
    ensures BuildTrend([first, second]).Ok? && BuildTrend([second, first]).Ok?
    ensures BuildTrend([first, second]).value.dates
      == [NormalizeDate(second.date), NormalizeDate(first.date)]
    ensures BuildTrend([second, first]).value.dates
      == [NormalizeDate(second.date), NormalizeDate(first.date)]
  {
    PairSorted(ToEntry(second), ToEntry(first));
    PairTrendIsSortedPair(first, second, [ToEntry(second), ToEntry(first)]);
    PairTrendIsSortedPair(second, first, [ToEntry(second), ToEntry(first)]);
    UnzipDatesOfTwo(ToEntry(second), ToEntry(first));
  }

  /** Two tuples with increasing dates are sorted, in either arrival order. */
  lemma PairSorted(x: Entry, y: Entry)
    requires StrLt(x.date, y.date)
    ensures Sorted([x, y])
    ensures multiset([x, y]) == multiset([y, x])
  {
    assert EntryLe(x, y);
  }

  lemma UnzipDatesOfTwo(x: Entry, y: Entry)
    ensures Unzip([x, y]).dates == [x.date, y.date]
  {
  }

  /** Two records give the trend of any sorted arrangement of their tuples. */
  lemma PairTrendIsSortedPair(a: DayCount, b: DayCount, rows: seq<Entry>)
    requires Sorted(rows)
    requires multiset(rows) == multiset([ToEntry(a), ToEntry(b)]) || multiset(rows) == multiset([ToEntry(b), ToEntry(a)])
    ensures BuildTrend([a, b]) == Ok(Unzip(rows))
  {
    assert multiset([ToEntry(b), ToEntry(a)]) == multiset([ToEntry(a), ToEntry(b)]);
    assert Entries([a, b]) == [ToEntry(a), ToEntry(b)];
    BuildTrendIsTheSortedArrangement([a, b], rows);
  }

  /** The ordering compares date strings, not days: the 3rd of January is
      placed after the 23rd, because "2020-1-3" is greater than "2020-1-23"
      at the character '3' versus '2'. */
  lemma BuildTrendOrdersDatesAsStrings()
    ensures BuildTrend([DayCount("1/3", 1, 0, 0, 0), DayCount("1/23", 2, 0, 0, 0)]).value.dates
      == ["2020-1-23", "2020-1-3"]
  {
    NormalizeDateExamples();
    LateBeforeEarlyAsStrings();
    BuildTrendOfTwo(DayCount("1/3", 1, 0, 0, 0), DayCount("1/23", 2, 0, 0, 0));
  }
}
